=== FILE: README.md ===
# SimplISS NFS-e client: dispatch layer

A Dafny model of the part of the SimplISS NFS-e client (the PHP package
`sped-nfse-simpliss`) that gets a request ready for the municipal web
service and cleans up its reply. It covers:

- **Session state.** `Common\Tools` keeps the layout version (`versao`), the
  schema directory key (`schemes`) and the environment pair (`tpAmb`,
  `ambiente`). It also keeps the portal namespace (`urlPortal`) and the
  dispatch context `servico` fills in: `urlVersion`, `urlService`,
  `urlMethod`, `urlOperation`, `urlNamespace`, `urlAction`, `urlHeader`,
  `objHeader`.
- **Operations.**
  - `version()` reads or selects the layout version and rejects versions
    that are not supported.
  - `setEnvironment()` accepts only the flags 1 (`producao`) and 2
    (`homologacao`).
  - `servico()` looks an operation up in the web-service catalog of a
    municipality and environment. It fails if the catalog entry is missing
    or the service URL is empty. On success it replaces the whole context.
  - The constructor's effect on this state.
- **Header.** `Header::get` builds the `cabecalho` header fragment.
- **Envelope.** `MakeEnvelope` builds the operation element. It carries the
  header and the request body, each in a CDATA section.
- **Reply cleanup.** `removeStuffs` does two things to a SOAP reply. First
  it cuts out the body of the first of six body-tag forms, in priority
  order. Then it erases the vendor namespace prefixes `ns3:`, `ns2:`,
  `ns4:` and `ns5:`, in that order.

Modules:

- `Wrappers`: `Option` and `Result`.
- `Text`: the PHP string primitives the code relies on.
  - `strpos` as an `Option`.
  - PHP 8 `substr` past the end of the string.
  - `preg_replace` of a literal pattern, modelled as a single left-to-right
    erase.
  - `explode` and `implode`, as an independent reference for that erase.
- `Header`: `Header::get`, and a reader for its `versao` attribute.
- `Normalizer`: `removeStuffs`.
- `Session`: the state, its invariant `Valid`, `version`, `setEnvironment`,
  `servico` and the constructor. `Run` applies any sequence of these calls.
- `Envelope`: `MakeEnvelope`, and a CDATA-section reader for its round trip.

Calls that throw in PHP return `Failure(...)` and no new state, so the
caller keeps the state it had. `Apply` and `Run` make this explicit.

PHP behaviour modelled:

- PHP strings are byte strings: `strlen`, `strpos` and `substr` count
  bytes. A Dafny `string` here stands for such a byte string, one `char`
  per byte. Every offset and length in the contracts, such as the 62 of the
  declared `env` fallback or the 201 of the header, counts bytes.
- A failed `strpos` is `false`. Used as an offset or a length, PHP coerces
  it to 0. The model does the same, so a reply that has an opening body tag
  but no closing tag comes out empty.
- Only the declared `env` form is detected by the bare `<env:Body` but cut on
  its full tag `<env:Body xmlns:env='…'>`. When that full tag is absent,
  the cut starts `strlen($tag)` bytes into the whole reply.
- `substr` past the end of the string returns `""`, as in PHP 8.
- `empty()` treats both `""` and `"0"` as empty.

## Model

| member | source | states |
|---|---|---|
| Text.IndexOf | src/Common/Tools.php:404-408 | `strpos` finds a match exactly when the pattern occurs; the match is at the returned offset and none occurs earlier |
| Text.SubstrFrom | src/Common/Tools.php:404 | `substr($xml, $start, strlen($xml))` returns the tail after `start`, or `""` when `start` is past the end |
| Text.CutBefore | src/Common/Tools.php:408 | `substr($xml, 0, strpos($xml, $tag))` returns the text before the first closing tag: the tag occurs at the cut point and no occurrence starts earlier, so the result holds no closing tag; it returns `""` when the tag is absent |
| Text.EraseAllIsSplitJoin | src/Common/Tools.php:464 | erasing a literal with `preg_replace` gives the same text as `implode('', explode($p, $s))` |
| Text.JoinSplit | src/Common/Tools.php:464 | the `explode` reference used for the erase loses nothing: `implode($p, explode($p, $s))` is `$s` |
| Text.SplitPiecesAvoidSeparator | src/Common/Tools.php:464 | no piece of `explode($p, $s)` contains `$p`, so joining the pieces with `''` leaves only text between occurrences |
| Text.EraseAllUnchangedIff | src/Common/Tools.php:462-466 | an erase leaves the text unchanged exactly when the pattern does not occur; otherwise it strictly shortens it |
| Text.EraseAllDoesNotRescan | src/Common/Tools.php:464 | `preg_replace` makes one pass: removing `ns3:` from `nns3:s3:` joins a new `ns3:`, and that one stays |
| Header.Get | src/Header/Header.php:24-30 | the header is 201 bytes plus two copies of the version, laid out end to end: `<cabecalho versao="`, the version, the closing quote with the three namespace declarations and `>`, then `<versaoDados>`, the version as its text, and `</versaoDados></cabecalho>` |
| Header.ParseVersionOfGet | src/Header/Header.php:26-27 | reading the `versao` attribute back from a header gives the version it was built from, for any version without a double quote |
| Header.GetInjective | src/Header/Header.php:24-30 | different versions give different headers |
| Header.NoBracket | src/Header/Header.php:26-29 | a header holds no `]` unless its version does, so it cannot end a CDATA section early |
| Normalizer.SelectVariant | src/Common/Tools.php:400-450 | no branch is taken exactly when no probe occurs; otherwise the branch taken is one whose probe occurs, and no higher-priority probe occurs |
| Normalizer.FirstProbeWins | src/Common/Tools.php:400-460 | the first branch whose probe occurs is the one whose cut is applied, whatever lower-priority tags the reply also holds |
| Normalizer.Unwrap | src/Common/Tools.php:402-408 | a cut is never longer than the reply, and what it keeps never contains that branch's closing tag |
| Normalizer.UnwrapTagged | src/Common/Tools.php:412-418 | for a reply `pre <tag> inner </tag> post` with no earlier opening tag and no closing tag inside the body, the cut returns exactly `inner` |
| Normalizer.StripOne | src/Common/Tools.php:462-466 | a guarded erase changes the text exactly when the prefix occurs, and then shortens it |
| Normalizer.StripPrefixes | src/Common/Tools.php:462-481 | the four erasures never lengthen the text and leave it unchanged exactly when no vendor prefix occurs |
| Normalizer.StripPrefixesOrder | src/Common/Tools.php:462-471 | an `ns2:` exposed by erasing `ns3:` is removed by the next pass, but an `ns3:` exposed by a later pass is kept |
| Normalizer.RemoveStuffs | src/Common/Tools.php:398-484 | the cleaned reply is never longer than the cut body |
| Normalizer.RemoveStuffsTagged | src/Common/Tools.php:398-484 | for a framed reply whose highest-priority form is `v`, the result is `inner` with vendor prefixes erased, and exactly `inner` when it has none |
| Normalizer.RemoveStuffsMissingClose | src/Common/Tools.php:404-408 | when the opening tag occurs but the closing tag does not, the result is the empty string |
| Normalizer.RemoveStuffsDeclaredEnvFallback | src/Common/Tools.php:440-448 | when only the bare `<env:Body` occurs, the first 62 bytes of the reply are dropped, wherever the body starts, before the closing-tag cut |
| Normalizer.RemoveStuffsShortDeclaredEnv | src/Common/Tools.php:440-448 | when only the bare `<env:Body` occurs and the reply is shorter than the 62-byte declared tag (a bare `<env:Body/>`, say), the cut starts past the end and the result is the empty string |
| Normalizer.RemoveStuffsPassThrough | src/Common/Tools.php:460-483 | a reply without any body tag only has its vendor prefixes erased, and is returned unchanged exactly when it has none |
| Session.FirstChar | src/Common/Tools.php:326 | `substr($versao, 0, 1)` is the first character, or `""` for an empty version |
| Session.EnvironmentName | src/Common/Tools.php:285 | the catalog key is `producao` exactly for flag 1 and `homologacao` otherwise |
| Session.Version | src/Common/Tools.php:201-219 | with no argument, returns the current version and changes nothing; a version that is not supported fails; a supported one becomes `versao`, with `schemes` set from the table and nothing else changed |
| Session.VersionReadAfterSelect | src/Common/Tools.php:201-218 | reading the version after selecting one returns the selected version |
| Session.VersionIdempotent | src/Common/Tools.php:206-212 | selecting the same version twice is the same as selecting it once |
| Session.VersionPreservesValid | src/Common/Tools.php:201-219 | a successful version selection keeps the session invariant |
| Session.SetEnvironment | src/Common/Tools.php:239-244 | flags other than 1 and 2 change nothing; 1 and 2 set `tpAmb` and make `ambiente` `producao` exactly for 1; no other field changes |
| Session.SetEnvironmentIdempotent | src/Common/Tools.php:239-244 | applying the same flag twice is the same as applying it once |
| Session.SetEnvironmentPreservesValid | src/Common/Tools.php:239-244 | changing the environment keeps the session invariant |
| Session.InitialValid | src/Common/Tools.php:48-101 | the field initialisers satisfy the session invariant |
| Session.Construct | src/Common/Tools.php:168-193 | construction fails exactly for an unsupported configured version; otherwise the state is valid, has the configured (or default) version, flag 2 unless 1 or 2 was configured, and the portal URL |
| Session.Servico | src/Common/Tools.php:278-341 | fails with "catalog not found" exactly when the municipality and environment have no entry, and with "service unavailable" exactly when the service is missing or its URL is empty; on success only the context changes, and every field comes from the record, the portal and the header version |
| Session.ServicoForgetsPreviousContext | src/Common/Tools.php:310-339 | whether `servico` succeeds, and the context it leaves, do not depend on the previous context |
| Session.ServicoPreservesValid | src/Common/Tools.php:278-341 | resolving a service keeps the session invariant |
| Session.HeaderVersionOfValid | src/Common/Tools.php:325-327 | every valid session sends header version `2`: the default `2.0.3` and the only supported `2.03` start with the same character |
| Session.Apply | src/Common/Tools.php:201-341 | only `servico` changes the context, only a successful version selection changes `versao`, and only `setEnvironment` changes `tpAmb`; no call changes `urlPortal` |
| Session.RunPreservesValid | src/Common/Tools.php:201-341 | every session reached by any sequence of these calls from a valid one is valid |
| Session.RunKeepsPortal | src/Common/Tools.php:201-341 | no sequence of `version`, `setEnvironment` and `servico` calls changes `urlPortal` |
| Session.ConstructedRunValid | src/Common/Tools.php:168-341 | every session reached from a constructed client is valid and has the portal URL as its namespace |
| Session.ConsultarNfseServicoTomadoScenario | src/Tools.php:23-30 | a client built for version 2.03 in staging resolves `ConsultarNfseServicoTomado` to the staging record's URL, the quoted portal action and a version-2 header |
| Envelope.MakeEnvelope | src/Common/Tools.php:376-395 | the envelope is, end to end: the operation's start tag and `<nfseCabecMsg>`, `<![CDATA[`, the header, `]]>`, `</nfseCabecMsg><nfseDadosMsg>`, `<![CDATA[`, the request body, `]]>`, then `</nfseDadosMsg>` and the end tag; so the header is the content of `nfseCabecMsg` and the request that of `nfseDadosMsg`, and the markup adds 53 bytes |
| Envelope.FramedIsExact | src/Common/Tools.php:378-392 | the layout `MakeEnvelope` promises leaves nothing open: any text laid out that way is exactly the concatenation of the start tag, the two CDATA sections with `Middle` between them, and the end tag |
| Envelope.EnvelopeRoundTrip | src/Common/Tools.php:382-388 | reading the CDATA sections of an envelope gives back the header and then the request body exactly, when the body holds no `]]>` |
| Envelope.EnvelopeCarriesVersion | src/Common/Tools.php:382 | the `versao` read back from the envelope's header section is the session's header version |

## Left out

- Constructor I/O: `json_decode` of the configuration, the storage path, the
  timezone (`setEnvironmentTimeZone`), the certificate, the `SoapCurl`
  transport and its proxy. Only the constructor's effect on the modelled
  fields is kept.
- `version()`: the `realpath` of the schema directory (`pathschemes`) is a
  file-system lookup and is not modelled. The `schemes` key it is built from
  is modelled.
- `isValid`: schema validation reads an XSD file and calls an external
  validator.
- `getXmlUrlPath` and the `Webservices` catalog parser. The catalog is a
  parameter: a map from (municipality, environment) to the operations'
  records. Its tie to the per-version file is not modelled.
- `sendRequest` and `checkSoap`: network transport.
- `lastRequest` / `lastResponse` and their getters: nothing in
  `Common\Tools` writes these fields, so the getters always return `''`.
- `SoapHeader` is recorded as the arguments it is constructed with.
  The class itself is outside this code. The model assumes its constructor
  never throws. PHP's `SoapHeader` rejects an empty namespace, which
  `servico` would pass if it ran on the field initialisers' empty
  `urlPortal`. A constructed client never does: `ConstructedRunValid`
  shows its namespace is always the portal URL.
- `DistDFe` in `src/Tools.php`, apart from its `servico` call: it builds a
  query body, then overwrites it and only dumps it, so nothing is sent.
  As written, the class cannot load at all: `src/Tools.php:14` imports its
  base class from `NNFePHP\NFSe\SimplISS\Common` (doubled `N`), a
  namespace no file declares, so `DistDFe` never runs. The scenario lemma
  `ConsultarNfseServicoTomadoScenario` states what its `servico` call
  would resolve with the import corrected to `NFePHP\NFSe\SimplISS\Common`.
- Fields no modelled operation reads:
  - `pathwsfiles`, read only by the catalog loader `getXmlUrlPath`;
  - `soapnamespacesEnv` and the certificate, read only by the transport
    (`sendRequest`, `checkSoap`);
  - `verAplic`, `urlcUF`, `algorithm` and `canonical`, read by nothing in
    `Common\Tools`.
- The `$ignoreContingency` argument of `servico`: its body never reads it.
- Session.SetEnvironment: the flag is an `int`. PHP's loose comparison of
  strings or booleans with 1 and 2 is not modelled.
- Session.Construct: the configured `tpAmb` is an `int`, for the same reason.
- Text.SubstrFrom: follows PHP 8, where `substr` past the end gives `""`.
  PHP 7 returned `false`.
- Envelope.EnvelopeRoundTrip: requires that the operation name holds no `!`.
  That rules out an opening `<![CDATA[` inside the start tag. The source
  does not restrict the name.
- Normalizer.RemoveStuffs: its own contract states only the length bound.
  The exact results are stated by the `RemoveStuffs…` lemmas, case by case:
  a framed body, a missing closing tag, the declared `env` fallback for
  replies of at least 62 bytes and for shorter ones, and no body tag.
  Together they cover every reply: split at the first opening tag and the
  first closing tag after it, a reply whose opening tag occurs is either
  framed or has no closing tag.

=== FILE: Envelope.dfy ===
/** `Tools::MakeEnvelope`: the operation request element that carries the
    `cabecalho` header and the caller's request body, each inside a CDATA
    section, and a reader for CDATA sections to state what the envelope
    gives back. */
module Envelope {
  import opened Wrappers
  import opened Text
  import Header
  import opened Session

  const CdataOpen := "<![CDATA["
  const CdataClose := "]]>"

  /** The operation's start tag and the opening of the header message. */
  function Head(s: State, servico: string): string
  {
    "<nfse:" + servico + "Request xmlns:tns=\"" + s.urlPortal + "\">" + "<nfseCabecMsg>"
  }

  /** Between the header section and the request section. */
  const Middle := "</nfseCabecMsg>" + "<nfseDadosMsg>"

  /** The closing of the request message and of the operation element. */
  function Tail(servico: string): string
  {
    "</nfseDadosMsg>" + "</nfse:" + servico + "Request>"
  }

  /** `MakeEnvelope($servico, $request)`, with the header built from the
      first character of the session's layout version: `Head`, the header
      in a CDATA section that closes `nfseCabecMsg`, `Middle`, which opens
      `nfseDadosMsg`, the request in a second CDATA section, and `Tail`. */
  function MakeEnvelope(s: State, servico: string, request: string): (xml: string)
    ensures Framed(xml, Head(s, servico), Header.Get(HeaderVersion(s)), request, Tail(servico))
  {
    var h := Header.Get(HeaderVersion(s));
    ConcatFramed(Head(s, servico), h, request, Tail(servico));
    Head(s, servico) + CdataOpen + h + CdataClose + Middle + CdataOpen + request + CdataClose + Tail(servico)
  }

  /** `xml` holds, end to end: `head`; the header `h` between the CDATA
      markers; `Middle`; `request` between the CDATA markers; `tail`. The
      first five pieces are placed from the start, the last four from the
      end, and the length leaves no room between them. */
  predicate Framed(xml: string, head: string, h: string, request: string, tail: string)
  {
    var a := |head| + |CdataOpen| + |h| + |CdataClose|;
    var z := |xml| - |tail| - |CdataClose| - |request|;
    && |xml| == |head| + |h| + |request| + |tail| + 53
    && xml[..|head|] == head
    && xml[|head|..|head| + |CdataOpen|] == CdataOpen
    && xml[|head| + |CdataOpen|..a - |CdataClose|] == h
    && xml[a - |CdataClose|..a] == CdataClose
    && xml[a..a + |Middle|] == Middle
    && xml[z - |CdataOpen|..z] == CdataOpen
    && xml[z..z + |request|] == request
    && xml[z + |request|..|xml| - |tail|] == CdataClose
    && xml[|xml| - |tail|..] == tail
  }

  /** The layout leaves nothing open: the text it describes is the
      concatenation of its pieces. */
  lemma FramedIsExact(xml: string, head: string, h: string, request: string, tail: string)
    requires Framed(xml, head, h, request, tail)
    ensures xml == head + CdataOpen + h + CdataClose + Middle + CdataOpen + request + CdataClose + tail
  {
    MarkupLength();
    Unframe(xml, head, CdataOpen, h, CdataClose, Middle, request, tail);
  }

  /** Nine pieces found end to end, covering the whole text, make it up. */
  lemma Unframe(x: string, a: string, o: string, h: string, c: string, m: string, r: string, t: string)
    requires |x| == |a| + |o| + |h| + |c| + |m| + |o| + |r| + |c| + |t|
    requires x[..|a|] == a
    requires x[|a|..|a| + |o|] == o
    requires x[|a| + |o|..|a| + |o| + |h|] == h
    requires x[|a| + |o| + |h|..|a| + |o| + |h| + |c|] == c
    requires x[|a| + |o| + |h| + |c|..|a| + |o| + |h| + |c| + |m|] == m
    requires x[|x| - |t| - |c| - |r| - |o|..|x| - |t| - |c| - |r|] == o
    requires x[|x| - |t| - |c| - |r|..|x| - |t| - |c|] == r
    requires x[|x| - |t| - |c|..|x| - |t|] == c
    requires x[|x| - |t|..] == t
    ensures x == a + o + h + c + m + o + r + c + t
  {
    var n := |a| + |o| + |h| + |c| + |m|;
    UnframeFront(x, a, o, h, c, m);
    UnframeBack(x, o, r, c, t);
    CutSlice(x, 0, n, |x|);
    assert x[0..|x|] == x && x[0..n] == x[..n] && x[n..|x|] == x[n..];
    BackPieces(a + o + h + c + m, o, r, c, t);
  }

  /** Five pieces found end to end from the start make up that prefix. */
  lemma UnframeFront(x: string, a: string, o: string, h: string, c: string, m: string)
    requires |a| + |o| + |h| + |c| + |m| <= |x|
    requires x[..|a|] == a
    requires x[|a|..|a| + |o|] == o
    requires x[|a| + |o|..|a| + |o| + |h|] == h
    requires x[|a| + |o| + |h|..|a| + |o| + |h| + |c|] == c
    requires x[|a| + |o| + |h| + |c|..|a| + |o| + |h| + |c| + |m|] == m
    ensures x[..|a| + |o| + |h| + |c| + |m|] == a + o + h + c + m
  {
    var i1 := |a|;
    var i2 := i1 + |o|;
    var i3 := i2 + |h|;
    var i4 := i3 + |c|;
    var i5 := i4 + |m|;
    assert x[0..i1] == a;
    CutSlice(x, 0, i1, i2);
    CutSlice(x, 0, i2, i3);
    CutSlice(x, 0, i3, i4);
    CutSlice(x, 0, i4, i5);
    assert x[0..i5] == x[..i5];
  }

  /** Four pieces found end to end up to the end make up that suffix. */
  lemma UnframeBack(x: string, o: string, r: string, c: string, t: string)
    requires |o| + |r| + |c| + |t| <= |x|
    requires x[|x| - |t| - |c| - |r| - |o|..|x| - |t| - |c| - |r|] == o
    requires x[|x| - |t| - |c| - |r|..|x| - |t| - |c|] == r
    requires x[|x| - |t| - |c|..|x| - |t|] == c
    requires x[|x| - |t|..] == t
    ensures x[|x| - |t| - |c| - |r| - |o|..] == o + r + c + t
  {
    var j3 := |x| - |t|;
    var j2 := j3 - |c|;
    var j1 := j2 - |r|;
    var j0 := j1 - |o|;
    assert x[j3..|x|] == t;
    CutSlice(x, j0, j1, j2);
    CutSlice(x, j0, j2, j3);
    CutSlice(x, j0, j3, |x|);
    assert x[j0..|x|] == x[j0..];
  }

  /** A slice is the two slices it is cut into. */
  lemma CutSlice(x: string, i: nat, j: nat, k: nat)
    requires i <= j <= k <= |x|
    ensures x[i..k] == x[i..j] + x[j..k]
  {
  }

  /** The layout of an envelope, for any start, header, body and end. */
  lemma ConcatFramed(head: string, h: string, request: string, tail: string)
    ensures Framed(head + CdataOpen + h + CdataClose + Middle + CdataOpen + request + CdataClose + tail, head, h, request, tail)
  {
    Frame(head, CdataOpen, h, CdataClose, Middle, request, tail);
    MarkupLength();
  }

  /** The CDATA markers and `Middle` add 53 bytes. */
  lemma MarkupLength()
    ensures 2 * |CdataOpen| + 2 * |CdataClose| + |Middle| == 53
  {
    assert |Middle| == 29;
  }

  /** Where each piece of `a + o + h + c + m + o + r + c + t` sits: the
      first five counted from the start, the last four from the end. */
  lemma Frame(a: string, o: string, h: string, c: string, m: string, r: string, t: string)
    ensures var x := a + o + h + c + m + o + r + c + t;
      && x[..|a|] == a
      && x[|a|..|a| + |o|] == o
      && x[|a| + |o|..|a| + |o| + |h|] == h
      && x[|a| + |o| + |h|..|a| + |o| + |h| + |c|] == c
      && x[|a| + |o| + |h| + |c|..|a| + |o| + |h| + |c| + |m|] == m
      && x[|x| - |t| - |c| - |r| - |o|..|x| - |t| - |c| - |r|] == o
      && x[|x| - |t| - |c| - |r|..|x| - |t| - |c|] == r
      && x[|x| - |t| - |c|..|x| - |t|] == c
      && x[|x| - |t|..] == t
  {
    FrontPieces(a, o, h, c, m, o + r + c + t);
    BackPieces(a + o + h + c + m, o, r, c, t);
  }

  lemma FrontPieces(a: string, o: string, h: string, c: string, m: string, back: string)
    ensures var x := a + o + h + c + m + back;
      && x[..|a|] == a
      && x[|a|..|a| + |o|] == o
      && x[|a| + |o|..|a| + |o| + |h|] == h
      && x[|a| + |o| + |h|..|a| + |o| + |h| + |c|] == c
      && x[|a| + |o| + |h| + |c|..|a| + |o| + |h| + |c| + |m|] == m
  {
    var x := a + o + h + c + m + back;
    var q5 := a + o + h + c + m;
    var q4 := a + o + h + c;
    var q3 := a + o + h;
    var q2 := a + o;
    Split2(q5, back);
    Split2(q4, m);
    Split2(q3, c);
    Split2(q2, h);
    Split2(a, o);
    SubSlice(x, |q4|, |q5|);
    SubSlice(x, |q3|, |q4|);
    SubSlice(x, |q2|, |q3|);
    SubSlice(x, |a|, |q2|);
  }

  lemma BackPieces(front: string, o: string, r: string, c: string, t: string)
    ensures front + o + r + c + t == front + (o + r + c + t)
    ensures var x := front + o + r + c + t;
      && x[|x| - |t| - |c| - |r| - |o|..|x| - |t| - |c| - |r|] == o
      && x[|x| - |t| - |c| - |r|..|x| - |t| - |c|] == r
      && x[|x| - |t| - |c|..|x| - |t|] == c
      && x[|x| - |t|..] == t
  {
    var x := front + o + r + c + t;
    var p3 := front + o + r + c;
    var p2 := front + o + r;
    var p1 := front + o;
    Split2(p3, t);
    Split2(p2, c);
    Split2(p1, r);
    Split2(front, o);
    SubSlice(x, |p2|, |p3|);
    SubSlice(x, |p1|, |p2|);
    SubSlice(x, |front|, |p1|);
  }

  /** Each part of a two-part concatenation. */
  lemma Split2(p: string, q: string)
    ensures (p + q)[..|p|] == p && (p + q)[|p|..] == q
  {
  }

  /** The tail from `i` of the prefix up to `k` is the slice from `i` to
      `k`, and its prefix up to `i` is the whole prefix up to `i`. */
  lemma SubSlice(x: string, i: nat, k: nat)
    requires i <= k <= |x|
    ensures x[..k][i..] == x[i..k] && x[..k][..i] == x[..i]
  {
  }

  /** The contents of the sections of `xml` delimited by `open` and
      `close`, in order; an unterminated last section runs to the end. */
  function Sections(xml: string, open: string, close: string): seq<string>
    requires open != [] && close != []
    decreases |xml|, 1
  {
    match IndexOf(xml, open)
    case None => []
    case Some(i) => SectionsFrom(xml[i + |open|..], open, close)
  }

  /** The sections of text that starts inside an opened section. */
  function SectionsFrom(body: string, open: string, close: string): seq<string>
    requires open != [] && close != []
    decreases |body|, 0
  {
    match IndexOf(body, close)
    case None => [body]
    case Some(j) => [body[..j]] + Sections(body[j + |close|..], open, close)
  }

  /** The contents of the CDATA sections of `xml`, as an XML reader sees
      them. */
  function CdataSections(xml: string): seq<string>
  {
    Sections(xml, CdataOpen, CdataClose)
  }

  lemma CdataTagsBorderFree()
    ensures BorderFree(CdataOpen) && BorderFree(CdataClose)
  {
    assert CdataOpen == ['<'] + "![CDATA[";
    LeadBorderFree('<', "![CDATA[");
    assert CdataClose == "]]" + ['>'];
    TrailBorderFree("]]", '>');
  }

  /** A section whose content holds no closing marker, preceded by text
      without an opening marker, is read back as it was written. */
  lemma SectionStep(a: string, c: string, rest: string, open: string, close: string)
    requires open != [] && close != [] && BorderFree(open) && BorderFree(close)
    requires !Contains(a, open) && !Contains(c, close)
    ensures Sections(a + open + c + close + rest, open, close) == [c] + Sections(rest, open, close)
  {
    var body := c + close + rest;
    var x := a + open + body;
    Regroup5(a, open, c, close, rest);
    FirstOccurrence(a, open, body);
    SliceAfter(a, open, body);
    FirstOccurrence(c, close, rest);
    SliceAfter(c, close, rest);
    assert body[..|c|] == c;
    assert x[|a| + |open|..] == body;
    assert Sections(x, open, close) == SectionsFrom(body, open, close);
  }

  /** Two sections separated and surrounded by marker-free text are read
      back in order. */
  lemma TwoSections(head: string, h: string, mid: string, r: string, tail: string, open: string, close: string)
    requires open != [] && close != [] && BorderFree(open) && BorderFree(close)
    requires !Contains(head, open) && !Contains(mid, open) && !Contains(tail, open)
    requires !Contains(h, close) && !Contains(r, close)
    ensures Sections(head + open + h + close + mid + open + r + close + tail, open, close) == [h, r]
  {
    Regroup9(head, open, h, close, mid, r, tail);
    SectionStep(head, h, mid + open + r + close + tail, open, close);
    SectionStep(mid, r, tail, open, close);
    assert IndexOf(tail, open).None?;
  }

  lemma Regroup9(a: string, o: string, h: string, c: string, m: string, r: string, t: string)
    ensures a + o + h + c + m + o + r + c + t == a + o + h + c + (m + o + r + c + t)
  {
  }

  /** Text before the header section: no `!`, so no opening marker. */
  lemma HeadHasNoMarker(s: State, servico: string)
    requires Valid(s) && '!' !in servico
    ensures !Contains(Head(s, servico), CdataOpen)
  {
    PortalHasNoBang(s);
    NoBangAround(servico, s.urlPortal);
    MissingCharNotContained(Head(s, servico), CdataOpen, '!');
  }

  lemma PortalHasNoBang(s: State)
    requires Valid(s)
    ensures '!' !in s.urlPortal
  {
    assert '!' !in PortalUrl;
  }

  lemma NoBangAround(servico: string, portal: string)
    requires '!' !in servico && '!' !in portal
    ensures '!' !in "<nfse:" + servico + "Request xmlns:tns=\"" + portal + "\">" + "<nfseCabecMsg>"
    ensures '!' in CdataOpen
  {
  }

  /** Text after the request section: no `!`, so no opening marker. */
  lemma TailHasNoMarker(servico: string)
    requires '!' !in servico
    ensures !Contains(Tail(servico), CdataOpen)
  {
    var tail := Tail(servico);
    assert '!' !in tail;
    assert '!' in CdataOpen;
    MissingCharNotContained(tail, CdataOpen, '!');
  }

  /** The header of every reachable session holds no `]`, so no `]]>`. */
  lemma HeaderHasNoCdataEnd(s: State)
    requires Valid(s)
    ensures !Contains(Header.Get(HeaderVersion(s)), CdataClose)
  {
    HeaderVersionOfValid(s);
    Header.NoBracket("2");
    assert ']' in CdataClose;
    MissingCharNotContained(Header.Get("2"), CdataClose, ']');
  }

  /** Reading the envelope's CDATA sections gives back the header (the
      content of `nfseCabecMsg`) and then the request body exactly (the
      content of `nfseDadosMsg`), provided the body holds no `]]>` and the
      operation name no `!`. */
  lemma EnvelopeRoundTrip(s: State, servico: string, request: string)
    requires Valid(s)
    requires '!' !in servico
    requires !Contains(request, CdataClose)
    ensures CdataSections(MakeEnvelope(s, servico, request)) == [Header.Get(HeaderVersion(s)), request]
  {
    CdataTagsBorderFree();
    HeadHasNoMarker(s, servico);
    HeaderHasNoCdataEnd(s);
    MiddleHasNoMarker();
    TailHasNoMarker(servico);
    TwoSections(Head(s, servico), Header.Get(HeaderVersion(s)), Middle, request, Tail(servico), CdataOpen, CdataClose);
  }

  /** Text between the sections: no `!`, so no opening marker. */
  lemma MiddleHasNoMarker()
    ensures !Contains(Middle, CdataOpen)
  {
    assert '!' !in Middle;
    assert '!' in CdataOpen;
    MissingCharNotContained(Middle, CdataOpen, '!');
  }

  /** The version digit read back from the envelope's header section is
      the session's. */
  lemma EnvelopeCarriesVersion(s: State, servico: string, request: string)
    requires Valid(s)
    requires '!' !in servico
    requires !Contains(request, CdataClose)
    ensures |CdataSections(MakeEnvelope(s, servico, request))| == 2
    ensures Header.ParseVersion(CdataSections(MakeEnvelope(s, servico, request))[0]) == Some(HeaderVersion(s))
  {
    EnvelopeRoundTrip(s, servico, request);
    assert CdataSections(MakeEnvelope(s, servico, request))[0] == Header.Get(HeaderVersion(s));
    HeaderVersionOfValid(s);
    Header.ParseVersionOfGet("2");
  }
}

=== FILE: Header.dfy ===
/** The `cabecalho` fragment sent, CDATA-wrapped, as the SOAP header of
    every request: a `cabecalho` element whose `versao` attribute and whose
    single `versaoDados` child both carry the layout version digit. */
module Header {
  import opened Wrappers
  import opened Text

  /** Everything up to the `versao` attribute value. */
  const AttrOpen := "<cabecalho versao=\""
  const W3Schema := "http://www.w3.org/2001/XMLSchema"
  const AbrasfSchema := "http://www.abrasf.org.br/nfse.xsd"
  /** The three namespace declarations carried by `cabecalho`. */
  const NamespaceDecls :=
    " xmlns:xsi=\"" + W3Schema + "-instance\"" + " xmlns:xsd=\"" + W3Schema + "\"" + " xmlns=\"" + AbrasfSchema + "\""
  /** Closes the attribute, declares the namespaces and ends the start tag. */
  const AttrClose := "\"" + NamespaceDecls + ">"
  const DataOpen := "<versaoDados>"
  const DataClose := "</versaoDados></cabecalho>"

  /** Length of the fixed text around the two copies of the version. */
  const FixedLength := 201

  /** `Header::get(version)`: the `cabecalho` start tag with `version` as
      its `versao` attribute and the three namespace declarations, then a
      `versaoDados` element whose text is `version`, then the end tag. */
  function Get(version: string): (h: string)
    ensures |h| == FixedLength + 2 * |version|
    ensures h[..11] == "<cabecalho "
    ensures h[|h| - 12..] == "</cabecalho>"
    ensures h[..|AttrOpen|] == AttrOpen
    ensures h[|AttrOpen|..|AttrOpen| + |version|] == version
    ensures h[|AttrOpen| + |version|..|AttrOpen| + |version| + |AttrClose|] == AttrClose
    ensures h[|h| - |DataClose| - |version| - |DataOpen|..|h| - |DataClose| - |version|] == DataOpen
    ensures h[|h| - |DataClose| - |version|..|h| - |DataClose|] == version
    ensures h[|h| - |DataClose|..] == DataClose
  {
    LayoutLength(version);
    LayoutEnds(version);
    Pieces(AttrOpen, version, AttrClose, DataOpen, DataClose);
    Layout(version)
  }

  /** The text `Header::get` concatenates. */
  function Layout(version: string): string
  {
    AttrOpen + version + AttrClose + DataOpen + version + DataClose
  }

  lemma LayoutLength(version: string)
    ensures |Layout(version)| == FixedLength + 2 * |version|
  {
    assert |AttrOpen| == 19 && |AttrClose| == 143 && |DataOpen| == 13 && |DataClose| == 26;
  }

  lemma LayoutEnds(version: string)
    ensures |Layout(version)| >= 12
    ensures Layout(version)[..11] == "<cabecalho "
    ensures Layout(version)[|Layout(version)| - 12..] == "</cabecalho>"
  {
    var h := Layout(version);
    LayoutLength(version);
    assert h[..11] == AttrOpen[..11];
    assert h[|h| - 12..] == DataClose[14..];
  }

  /** Where each piece of `a + v + c + d + v + e` sits. */
  lemma Pieces(a: string, v: string, c: string, d: string, e: string)
    ensures var x := a + v + c + d + v + e;
      && x[..|a|] == a
      && x[|a|..|a| + |v|] == v
      && x[|a| + |v|..|a| + |v| + |c|] == c
      && x[|x| - |e| - |v| - |d|..|x| - |e| - |v|] == d
      && x[|x| - |e| - |v|..|x| - |e|] == v
      && x[|x| - |e|..] == e
  {
    var x := a + v + c + d + v + e;
    assert x == a + (v + c + d + v + e);
    assert x == a + v + (c + d + v + e);
    assert x == a + v + c + (d + v + e);
    assert x == a + v + c + d + (v + e);
  }

  /** Reads the `versao` attribute back out of a header: the text after
      `<cabecalho versao="` up to the next double quote. */
  function ParseVersion(h: string): Option<string>
  {
    if |h| < |AttrOpen| || h[..|AttrOpen|] != AttrOpen then None
    else
      var rest := h[|AttrOpen|..];
      match IndexOf(rest, "\"")
      case None => None
      case Some(i) => Some(rest[..i])
  }

  /** The attribute value read back from a header is the version it was
      built from, as long as the version holds no double quote. */
  lemma ParseVersionOfGet(version: string)
    requires '"' !in version
    ensures ParseVersion(Get(version)) == Some(version)
  {
    var tail := NamespaceDecls + ">" + DataOpen + version + DataClose;
    LayoutAfterAttrOpen(version);
    ParseVersionOf(version, tail);
  }

  /** The header continues after `<cabecalho versao="` with the version and
      the closing double quote. */
  lemma LayoutAfterAttrOpen(version: string)
    ensures Layout(version) == AttrOpen + (version + ("\"" + (NamespaceDecls + ">" + DataOpen + version + DataClose)))
  {
    Regroup(AttrOpen, version, "\"", NamespaceDecls, ">", DataOpen, DataClose);
  }

  lemma Regroup(a: string, v: string, q: string, n: string, g: string, d: string, e: string)
    ensures a + v + (q + n + g) + d + v + e == a + (v + (q + (n + g + d + v + e)))
  {
  }

  lemma ParseVersionOf(version: string, tail: string)
    requires '"' !in version
    ensures ParseVersion(AttrOpen + (version + ("\"" + tail))) == Some(version)
  {
    var rest := version + ("\"" + tail);
    assert (AttrOpen + rest)[..|AttrOpen|] == AttrOpen;
    assert (AttrOpen + rest)[|AttrOpen|..] == rest;
    MissingCharNotContained(version, "\"", '"');
    FirstOccurrence(version, "\"", tail);
    assert rest == version + "\"" + tail;
    assert rest[..|version|] == version;
  }

  /** The fixed text of a header holds no `]`, so neither does a header
      built from a version without one. */
  lemma NoBracket(version: string)
    requires ']' !in version
    ensures ']' !in Get(version)
  {
    DeclsNoBracket();
    assert ']' !in AttrOpen && ']' !in AttrClose && ']' !in DataOpen && ']' !in DataClose;
  }

  lemma DeclsNoBracket()
    ensures ']' !in NamespaceDecls
  {
    assert ']' !in W3Schema && ']' !in AbrasfSchema;
  }

  /** Different versions give different headers. */
  lemma GetInjective(a: string, b: string)
    requires Get(a) == Get(b)
    ensures a == b
  {
    assert |a| == |b|;
    assert a == Get(a)[|AttrOpen|..|AttrOpen| + |a|];
  }
}

=== FILE: Normalizer.dfy ===
/** `Tools::removeStuffs`: strips the SOAP body wrapper off a raw response
    (the first of six known wrapper forms whose opening tag occurs), then
    erases the vendor prefixes `ns3:`, `ns2:`, `ns4:` and `ns5:` by literal
    text substitution, in that order. */
module Normalizer {
  import opened Wrappers
  import opened Text

  /** The six body-wrapper forms, in the order they are tried. */
  datatype BodyVariant =
    | SoapBody          // <soap:Body>
    | SoapEnvBody       // <soapenv:Body>
    | Soap12Body        // <soap12:Body>
    | EnvBody           // <env:Body>
    | EnvBodyDeclared   // <env:Body xmlns:env='...'>, detected by `<env:Body`
    | SBody             // <S:Body>

  /** Position of a form in the priority order. */
  function Rank(v: BodyVariant): nat
  {
    match v
    case SoapBody => 0
    case SoapEnvBody => 1
    case Soap12Body => 2
    case EnvBody => 3
    case EnvBodyDeclared => 4
    case SBody => 5
  }

  /** The namespace prefix each form's body element carries. */
  function Prefix(v: BodyVariant): string
  {
    match v
    case SoapBody => "soap"
    case SoapEnvBody => "soapenv"
    case Soap12Body => "soap12"
    case EnvBody => "env"
    case EnvBodyDeclared => "env"
    case SBody => "S"
  }

  const SoapEnvelopeNamespace := "http://www.w3.org/2003/05/soap-envelope"

  /** Attributes written into the opening tag: only the declared `env` form
      carries its namespace declaration, in single quotes. */
  function Attributes(v: BodyVariant): string
  {
    if v == EnvBodyDeclared then " xmlns:env='" + SoapEnvelopeNamespace + "'" else ""
  }

  /** The opening tag cut off the front of the response. */
  function OpenTag(v: BodyVariant): string
  {
    "<" + Prefix(v) + ":Body" + Attributes(v) + ">"
  }

  /** The closing tag the inner content is cut before. */
  function CloseTag(v: BodyVariant): string
  {
    "</" + Prefix(v) + ":Body>"
  }

  /** The text whose presence selects a form. It is the opening tag itself,
      except for the declared `env` form, which is detected by the bare
      `<env:Body` but cut on its full declared tag. */
  function Probe(v: BodyVariant): string
  {
    if v == EnvBodyDeclared then "<" + Prefix(v) + ":Body" else OpenTag(v)
  }

  /** The first form, in priority order, whose probe occurs in `xml`. */
  function SelectVariant(xml: string): (r: Option<BodyVariant>)
    ensures r.None? <==> forall w :: !Contains(xml, Probe(w))
    ensures r.Some? ==> Contains(xml, Probe(r.value))
    ensures r.Some? ==> forall w :: Rank(w) < Rank(r.value) ==> !Contains(xml, Probe(w))
  {
    if Contains(xml, Probe(SoapBody)) then Some(SoapBody)
    else if Contains(xml, Probe(SoapEnvBody)) then Some(SoapEnvBody)
    else if Contains(xml, Probe(Soap12Body)) then Some(Soap12Body)
    else if Contains(xml, Probe(EnvBody)) then Some(EnvBody)
    else if Contains(xml, Probe(EnvBodyDeclared)) then Some(EnvBodyDeclared)
    else if Contains(xml, Probe(SBody)) then Some(SBody)
    else None
  }

  /** One branch of `removeStuffs`: drop everything up to the end of the
      first opening tag (offset 0 when the exact tag is absent, as PHP
      coerces `false`), then keep what precedes the first closing tag. */
  function Unwrap(xml: string, v: BodyVariant): (r: string)
    ensures |r| <= |xml|
    ensures !Contains(r, CloseTag(v))
  {
    var open := OpenTag(v);
    var rest := SubstrFrom(xml, OffsetOrZero(IndexOf(xml, open)) + |open|);
    CutBefore(rest, CloseTag(v))
  }

  /** The text after body unwrapping: untouched when no form matches. */
  function Unwrapped(xml: string): string
  {
    match SelectVariant(xml)
    case Some(v) => Unwrap(xml, v)
    case None => xml
  }

  /** The vendor prefixes, in the order they are erased. */
  const VendorPrefixes := ["ns3:", "ns2:", "ns4:", "ns5:"]

  predicate HasVendorPrefix(x: string)
  {
    exists k | 0 <= k < |VendorPrefixes| :: Contains(x, VendorPrefixes[k])
  }

  /** One guarded `preg_replace` of the prefix block: erases every
      occurrence of `p`, and changes the text exactly when `p` occurs. */
  function StripOne(x: string, p: string): (r: string)
    requires p != []
    ensures |r| <= |x|
    ensures r == x <==> !Contains(x, p)
    ensures Contains(x, p) ==> |r| < |x|
  {
    EraseAllUnchangedIff(x, p);
    if Contains(x, p) then EraseAll(x, p) else x
  }

  /** The four erasures, `ns3:` first and `ns5:` last. The result is never
      longer than the input, and equals it exactly when no vendor prefix
      occurs. */
  function StripPrefixes(x: string): (r: string)
    ensures |r| <= |x|
    ensures r == x <==> !HasVendorPrefix(x)
  {
    var a := StripOne(x, VendorPrefixes[0]);
    var b := StripOne(a, VendorPrefixes[1]);
    var c := StripOne(b, VendorPrefixes[2]);
    VendorPrefixCases(x);
    StripOne(c, VendorPrefixes[3])
  }

  lemma VendorPrefixCases(x: string)
    ensures HasVendorPrefix(x) <==>
      Contains(x, VendorPrefixes[0]) || Contains(x, VendorPrefixes[1]) ||
      Contains(x, VendorPrefixes[2]) || Contains(x, VendorPrefixes[3])
  {
    if Contains(x, VendorPrefixes[3]) {
      assert 0 <= 3 < |VendorPrefixes|;
    }
  }

  /** `Tools::removeStuffs(xml)`. */
  function RemoveStuffs(xml: string): (r: string)
    ensures |r| <= |Unwrapped(xml)|
  {
    StripPrefixes(Unwrapped(xml))
  }

  /** Every opening and closing body tag is border-free: `<` occurs only
      as its first character. */
  lemma TagsBorderFree(v: BodyVariant)
    ensures OpenTag(v) != [] && BorderFree(OpenTag(v))
    ensures CloseTag(v) != [] && BorderFree(CloseTag(v))
  {
    var openRest, closeRest := TagShapes(v);
    LeadBorderFree('<', openRest);
    LeadBorderFree('<', closeRest);
  }

  /** Each tag is `<` followed by text without `<`. */
  lemma TagShapes(v: BodyVariant) returns (openRest: string, closeRest: string)
    ensures OpenTag(v) == ['<'] + openRest && '<' !in openRest
    ensures CloseTag(v) == ['<'] + closeRest && '<' !in closeRest
  {
    openRest := Prefix(v) + ":Body" + Attributes(v) + ">";
    closeRest := "/" + Prefix(v) + ":Body>";
    NoAngleInParts(v);
    Assoc5("<", Prefix(v), ":Body", Attributes(v), ">");
    Assoc4("<", "/", Prefix(v), ":Body>");
    assert "</" == "<" + "/";
  }

  /** Neither a prefix nor the attributes hold `<`. */
  lemma NoAngleInParts(v: BodyVariant)
    ensures '<' !in Prefix(v) && '<' !in Attributes(v)
  {
    if v == EnvBodyDeclared {
      assert '<' !in SoapEnvelopeNamespace;
    }
  }

  /** A form's probe is a prefix of its opening tag. */
  lemma ProbeStartsOpenTag(v: BodyVariant)
    ensures |Probe(v)| <= |OpenTag(v)| && OpenTag(v)[..|Probe(v)|] == Probe(v)
  {
    Assoc5("<", Prefix(v), ":Body", Attributes(v), ">");
    assert OpenTag(v) == ("<" + Prefix(v) + ":Body") + (Attributes(v) + ">");
  }

  /** The first form whose probe occurs decides the unwrapping, whatever
      lower-priority forms also occur. */
  lemma FirstProbeWins(xml: string, v: BodyVariant)
    requires Contains(xml, Probe(v))
    requires forall w :: Rank(w) < Rank(v) ==> !Contains(xml, Probe(w))
    ensures SelectVariant(xml) == Some(v)
    ensures Unwrapped(xml) == Unwrap(xml, v)
  {
    var r := SelectVariant(xml);
    assert r.Some?;
    assert !(Rank(r.value) < Rank(v));
    assert !(Rank(v) < Rank(r.value));
  }

  /** When the opening tag first occurs right after `pre` and the closing
      tag first occurs right after `inner`, a branch of `removeStuffs`
      returns exactly `inner`. */
  lemma UnwrapTagged(v: BodyVariant, pre: string, inner: string, post: string)
    requires !Contains(pre, OpenTag(v))
    requires !Contains(inner, CloseTag(v))
    ensures Unwrap(pre + OpenTag(v) + inner + CloseTag(v) + post, v) == inner
  {
    TagsBorderFree(v);
    CutBetween(pre, OpenTag(v), inner, CloseTag(v), post);
  }

  /** A response framed by form `v` loses exactly its framing: only the
      vendor prefixes inside are still erased. At most one body is
      unwrapped, so `inner` may itself look like a framed body. */
  lemma RemoveStuffsTagged(v: BodyVariant, pre: string, inner: string, post: string)
    requires !Contains(pre, OpenTag(v))
    requires !Contains(inner, CloseTag(v))
    requires forall w :: Rank(w) < Rank(v) ==>
      !Contains(pre + OpenTag(v) + inner + CloseTag(v) + post, Probe(w))
    ensures RemoveStuffs(pre + OpenTag(v) + inner + CloseTag(v) + post) == StripPrefixes(inner)
    ensures !HasVendorPrefix(inner) ==>
      RemoveStuffs(pre + OpenTag(v) + inner + CloseTag(v) + post) == inner
  {
    var xml := pre + OpenTag(v) + inner + CloseTag(v) + post;
    Regroup5(pre, OpenTag(v), inner, CloseTag(v), post);
    ProbeStartsOpenTag(v);
    ProbeInside(pre, OpenTag(v), inner + CloseTag(v) + post, Probe(v));
    FirstProbeWins(xml, v);
    UnwrapTagged(v, pre, inner, post);
  }

  /** A response whose body is opened but never closed comes back empty:
      the missing `strpos` of the closing tag becomes length 0. */
  lemma RemoveStuffsMissingClose(v: BodyVariant, pre: string, rest: string)
    requires !Contains(pre, OpenTag(v))
    requires !Contains(rest, CloseTag(v))
    requires forall w :: Rank(w) < Rank(v) ==> !Contains(pre + OpenTag(v) + rest, Probe(w))
    ensures RemoveStuffs(pre + OpenTag(v) + rest) == []
  {
    var xml := pre + OpenTag(v) + rest;
    ProbeStartsOpenTag(v);
    ProbeInside(pre, OpenTag(v), rest, Probe(v));
    FirstProbeWins(xml, v);
    UnwrapMissingClose(v, pre, rest);
    StripPrefixesEmpty();
  }

  /** Nothing is erased from the empty text. */
  lemma StripPrefixesEmpty()
    ensures StripPrefixes([]) == []
  {
    assert !HasVendorPrefix([]);
  }

  /** The cut alone, for a reply whose closing tag is missing. */
  lemma UnwrapMissingClose(v: BodyVariant, pre: string, rest: string)
    requires !Contains(pre, OpenTag(v))
    requires !Contains(rest, CloseTag(v))
    ensures Unwrap(pre + OpenTag(v) + rest, v) == []
  {
    TagsBorderFree(v);
    FirstOccurrence(pre, OpenTag(v), rest);
    SliceAfter(pre, OpenTag(v), rest);
  }

  /** When only the bare `<env:Body` occurs, without the exact declared
      tag, `strpos` fails and the cut starts at offset `strlen($tag)` of the
      whole response: its first |tag| bytes are dropped, wherever the
      body element really starts. */
  lemma RemoveStuffsDeclaredEnvFallback(head: string, tail: string)
    requires |head| == |OpenTag(EnvBodyDeclared)|
    requires forall w :: Rank(w) < Rank(EnvBodyDeclared) ==> !Contains(head + tail, Probe(w))
    requires Contains(head + tail, Probe(EnvBodyDeclared))
    requires !Contains(head + tail, OpenTag(EnvBodyDeclared))
    ensures RemoveStuffs(head + tail) ==
      StripPrefixes(CutBefore(tail, CloseTag(EnvBodyDeclared)))
  {
    FirstProbeWins(head + tail, EnvBodyDeclared);
    assert (head + tail)[|head|..] == tail;
  }

  /** The same fallback on a reply shorter than the declared tag, such as
      a bare `<env:Body/>`: the cut starts past the end, PHP 8 `substr`
      gives `""`, and the result is empty. */
  lemma RemoveStuffsShortDeclaredEnv(xml: string)
    requires |xml| < |OpenTag(EnvBodyDeclared)|
    requires forall w :: Rank(w) < Rank(EnvBodyDeclared) ==> !Contains(xml, Probe(w))
    requires Contains(xml, Probe(EnvBodyDeclared))
    ensures RemoveStuffs(xml) == []
  {
    FirstProbeWins(xml, EnvBodyDeclared);
    assert !MatchAt(xml, OpenTag(EnvBodyDeclared), 0);
    assert IndexOf(xml, OpenTag(EnvBodyDeclared)) == None;
    assert Unwrap(xml, EnvBodyDeclared) == [];
    StripPrefixesEmpty();
  }

  /** A response with none of the six probes is not unwrapped; it comes back
      unchanged exactly when it holds no vendor prefix. */
  lemma RemoveStuffsPassThrough(xml: string)
    requires forall w :: !Contains(xml, Probe(w))
    ensures RemoveStuffs(xml) == StripPrefixes(xml)
    ensures RemoveStuffs(xml) == xml <==> !HasVendorPrefix(xml)
  {
  }

  /** The erasures run in a fixed order and are not repeated: erasing
      `ns3:` can expose an `ns2:` that the next pass removes, but an `ns3:`
      exposed by a later pass stays. */
  lemma StripPrefixesOrder()
    ensures StripPrefixes("nns3:s2:") == ""
    ensures StripPrefixes("nns2:s3:") == "ns3:"
  {
    ChainedExposure();
    LateExposure();
  }

  /** Erasing `ns3:` from `nns3:s2:` exposes `ns2:`, which the next pass
      erases; nothing is left for the last two. */
  lemma ChainedExposure()
    ensures StripPrefixes("nns3:s2:") == ""
  {
    ExposeNs2();
    WholeNs2();
    EmptyStaysEmpty();
  }

  /** Erasing `ns2:` from `nns2:s3:` exposes `ns3:`, whose pass has
      already run; the last two passes do not touch it. */
  lemma LateExposure()
    ensures StripPrefixes("nns2:s3:") == "ns3:"
  {
    NoEarlyNs3();
    ExposeNs3();
    Ns3Stays();
  }

  /** The `ns3:` pass over `nns3:s2:` leaves the exposed `ns2:`. */
  lemma ExposeNs2()
    ensures StripOne("nns3:s2:", "ns3:") == "ns2:"
  {
    StripOneExposed("ns3:", "s2:");
    assert ['n'] + "ns3:" + "s2:" == "nns3:s2:" && ['n'] + "s2:" == "ns2:";
  }

  /** The `ns2:` pass over `ns2:` leaves nothing. */
  lemma WholeNs2()
    ensures StripOne("ns2:", "ns2:") == ""
  {
    StripOneWhole("ns2:");
  }

  lemma EmptyStaysEmpty()
    ensures StripOne("", "ns4:") == "" && StripOne("", "ns5:") == ""
  {
    StripOneAbsent("", "ns4:");
    StripOneAbsent("", "ns5:");
  }

  /** The `ns2:` pass over `nns2:s3:` leaves the exposed `ns3:`. */
  lemma ExposeNs3()
    ensures StripOne("nns2:s3:", "ns2:") == "ns3:"
  {
    StripOneExposed("ns2:", "s3:");
    assert ['n'] + "ns2:" + "s3:" == "nns2:s3:" && ['n'] + "s3:" == "ns3:";
  }

  /** The `ns4:` and `ns5:` passes leave `ns3:` as it is. */
  lemma Ns3Stays()
    ensures StripOne("ns3:", "ns4:") == "ns3:" && StripOne("ns3:", "ns5:") == "ns3:"
  {
    assert "ns3:"[2] != "ns4:"[2] && "ns3:"[2] != "ns5:"[2];
    StripOneAbsent("ns3:", "ns4:");
    StripOneAbsent("ns3:", "ns5:");
  }

  /** A pattern exposed by erasing `p` from `n` + `p` + `rest` is not
      erased again in the same pass. */
  lemma StripOneExposed(p: string, rest: string)
    requires |p| == 4 && |rest| < 4 && p[0] == 'n' && p[1] != 'n'
    ensures StripOne(['n'] + p + rest, p) == ['n'] + rest
  {
    ExposedAfterErase(['n'] + p + rest, p, rest);
  }

  /** A pattern erased from itself leaves nothing. */
  lemma StripOneWhole(p: string)
    requires p != []
    ensures StripOne(p, p) == []
  {
    assert MatchAt(p, p, 0);
    assert p[|p|..] == [];
    EraseAllAtMatch(p, p);
  }

  /** A text no longer than `p` and different from it is left as it is. */
  lemma StripOneAbsent(x: string, p: string)
    requires p != [] && |x| <= |p| && x != p
    ensures StripOne(x, p) == x
  {
    if |x| == |p| {
      assert x[0..|p|] == x;
    }
  }

  /** Before the `ns2:` pass, `nns2:s3:` holds no `ns3:`. */
  lemma NoEarlyNs3()
    ensures StripOne("nns2:s3:", "ns3:") == "nns2:s3:"
  {
    var x := "nns2:s3:";
    forall i: nat | i + 4 <= |x|
      ensures !MatchAt(x, "ns3:", i)
    {
      assert x[i..i + 4][0] != 'n' || x[i..i + 4][2] != '3';
    }
  }

  /** Erasing `p` from `n` + `p` + `rest` (with `rest` shorter than `p`)
      leaves `n` + `rest`. */
  lemma ExposedAfterErase(x: string, p: string, rest: string)
    requires |p| == 4 && |rest| < 4 && x == ['n'] + p + rest && p[0] == 'n' && p[1] != 'n'
    ensures Contains(x, p)
    ensures EraseAll(x, p) == ['n'] + rest
  {
    assert x[1..5] == p;
    assert MatchAt(x, p, 1);
    assert x[..4] != p by { assert x[..4][1] == 'n'; }
    assert x[1..] == p + rest;
    assert (p + rest)[..4] == p;
    assert (p + rest)[4..] == rest;
    assert EraseAll(x[1..], p) == EraseAll(rest, p) == rest;
    assert x[0] == 'n';
  }
}

=== FILE: Session.dfy ===
/** The session state of `Common\Tools` and its transitions: the layout
    version (`version`), the environment (`setEnvironment`), the state the
    constructor leaves behind, and the per-call service resolution
    (`servico`) that fills the dispatch context. A transition that throws
    returns `Failure` and no state: the session is the one before the call. */
module Session {
  import opened Wrappers
  import Header

  const Production := "producao"
  const Staging := "homologacao"

  /** `versao` before any call to `version`. */
  const InitialVersion := "2.0.3"

  /** `availableVersions`: layout version to schema directory. */
  const AvailableVersions: map<string, string> := map["2.03" := "SIMPLIISV203"]

  /** The namespace the constructor installs in `urlPortal`. */
  const PortalUrl := "http://nfse.abrasf.org.br"

  /** The arguments given to the SOAP header object. */
  datatype SoapHeader = SoapHeader(namespace: string, name: string, versao: string)

  /** The fields `servico` overwrites on every successful call. */
  datatype Context = Context(
    urlVersion: string,
    urlService: string,
    urlMethod: string,
    urlOperation: string,
    urlNamespace: string,
    urlAction: string,
    urlHeader: string,
    objHeader: Option<SoapHeader>)

  /** Session-level fields (`schemes` is `config->schemes`, absent until a
      version is selected) and the dispatch context. */
  datatype State = State(
    versao: string,
    schemes: Option<string>,
    tpAmb: int,
    ambiente: string,
    urlPortal: string,
    ctx: Context)

  datatype Error =
    | UnsupportedVersion(version: string)   // InvalidArgumentException in `version`
    | CatalogNotFound(municipality: string) // first RuntimeException in `servico`
    | ServiceUnavailable(service: string)   // second RuntimeException in `servico`

  /** One catalog record for an operation. */
  datatype Endpoint = Endpoint(version: string, url: string, soapMethod: string, operation: string)

  /** The service catalog of the active layout version: for a municipality
      and an environment name, the records of its operations. */
  type Catalog = map<(string, string), map<string, Endpoint>>

  const EmptyContext := Context("", "", "", "", "", "", "", None)

  /** The field initialisers of `Common\Tools`. */
  const Initial := State(InitialVersion, None, 2, Staging, "", EmptyContext)

  /** The session invariant every reachable state keeps. */
  predicate Valid(s: State)
  {
    && (s.tpAmb == 1 || s.tpAmb == 2)
    && (s.ambiente == Production <==> s.tpAmb == 1)
    && (s.ambiente == Production || s.ambiente == Staging)
    && (s.versao == InitialVersion || s.versao in AvailableVersions)
    && (s.schemes.Some? ==> s.versao in AvailableVersions && s.schemes.value == AvailableVersions[s.versao])
    && (s.urlPortal == "" || s.urlPortal == PortalUrl)
  }

  /** `substr($s, 0, 1)` (the empty string stays empty in PHP 8). */
  function FirstChar(s: string): (r: string)
    ensures |s| > 0 ==> r == [s[0]]
    ensures |s| == 0 ==> r == []
  {
    if |s| == 0 then [] else s[..1]
  }

  /** The version digit carried by the SOAP header. */
  function HeaderVersion(s: State): string
  {
    FirstChar(s.versao)
  }

  /** The environment name an environment flag selects. */
  function EnvironmentName(tpAmb: int): (name: string)
    ensures name == Production <==> tpAmb == 1
    ensures name == Production || name == Staging
  {
    if tpAmb == 1 then Production else Staging
  }

  /** `version($version)`: with no argument, reads the layout version; with
      a supported one, selects it and its schema directory; otherwise
      throws. The reply pairs the new state with the returned version. */
  function Version(s: State, version: Option<string>): (r: Result<(State, string), Error>)
    ensures version.None? ==> r == Success((s, s.versao))
    ensures version.Some? ==> (r.Failure? <==> version.value !in AvailableVersions)
    ensures r.Failure? ==> r.error == UnsupportedVersion(version.value)
    ensures version.Some? && r.Success? ==>
      && r.value.1 == version.value
      && r.value.0.versao == version.value
      && r.value.0.schemes == Some(AvailableVersions[version.value])
      && r.value.0 == s.(versao := version.value, schemes := r.value.0.schemes)
  {
    match version
    case None => Success((s, s.versao))
    case Some(v) =>
      if v !in AvailableVersions then Failure(UnsupportedVersion(v))
      else
        var s' := s.(versao := v, schemes := Some(AvailableVersions[v]));
        Success((s', s'.versao))
  }

  /** `setEnvironment($tpAmb)`: only 1 and 2 are accepted; any other flag
      leaves the state as it was. */
  function SetEnvironment(s: State, tpAmb: int): (r: State)
    ensures tpAmb != 1 && tpAmb != 2 ==> r == s
    ensures tpAmb == 1 || tpAmb == 2 ==>
      r.tpAmb == tpAmb && (r.ambiente == Production <==> tpAmb == 1)
    ensures r == s.(tpAmb := r.tpAmb, ambiente := r.ambiente)
  {
    if tpAmb != 0 && (tpAmb == 1 || tpAmb == 2) then
      s.(tpAmb := tpAmb, ambiente := EnvironmentName(tpAmb))
    else s
  }

  /** The state the constructor leaves: `version($config->versao)` (which
      may throw), `setEnvironment($config->tpAmb)`, then the portal
      namespace. A missing `versao` in the configuration is `None`. */
  function Construct(versao: Option<string>, tpAmb: int): (r: Result<State, Error>)
    ensures r.Failure? <==> versao.Some? && versao.value !in AvailableVersions
    ensures r.Success? ==> Valid(r.value) && r.value.urlPortal == PortalUrl
    ensures r.Success? ==> r.value.versao == versao.GetOr(InitialVersion)
    ensures r.Success? ==> r.value.tpAmb == (if tpAmb == 1 || tpAmb == 2 then tpAmb else 2)
  {
    InitialValid();
    var reply :- Version(Initial, versao);
    var s1 := reply.0;
    VersionPreservesValid(Initial, versao);
    var s2 := SetEnvironment(s1, tpAmb);
    SetEnvironmentPreservesValid(s1, tpAmb);
    Success(s2.(urlPortal := PortalUrl))
  }

  /** PHP `empty()` on a string: both "" and "0" are empty. */
  predicate Empty(s: string)
  {
    s == "" || s == "0"
  }

  /** `servico($service, $mun, $tpAmb)`: looks the operation up in the
      catalog and, only when it is found with a non-empty URL, overwrites
      the whole dispatch context from the record and the session. */
  function Servico(s: State, catalog: Catalog, service: string, mun: string, tpAmb: int): (r: Result<State, Error>)
    ensures var key := (mun, EnvironmentName(tpAmb));
      && (key !in catalog <==> r == Failure(CatalogNotFound(mun)))
      && ((key in catalog && (service !in catalog[key] || Empty(catalog[key][service].url)))
          <==> r == Failure(ServiceUnavailable(service)))
    ensures r.Success? ==>
      var e := catalog[(mun, EnvironmentName(tpAmb))][service];
      && r.value == s.(ctx := r.value.ctx)
      && !Empty(r.value.ctx.urlService)
      && r.value.ctx.urlVersion == e.version
      && r.value.ctx.urlService == e.url
      && r.value.ctx.urlMethod == e.soapMethod
      && r.value.ctx.urlOperation == e.operation
      && r.value.ctx.urlNamespace == s.urlPortal
      && r.value.ctx.urlAction == "\"" + s.urlPortal + "/" + e.soapMethod + "\""
      && r.value.ctx.urlHeader == Header.Get(HeaderVersion(s))
      && r.value.ctx.objHeader == Some(SoapHeader(s.urlPortal, "cabecalho", HeaderVersion(s)))
  {
    var ambiente := EnvironmentName(tpAmb);
    if (mun, ambiente) !in catalog then Failure(CatalogNotFound(mun))
    else
      var services := catalog[(mun, ambiente)];
      if service !in services || Empty(services[service].url) then Failure(ServiceUnavailable(service))
      else
        var e := services[service];
        var namespace := s.urlPortal;
        var digit := FirstChar(s.versao);
        Success(s.(ctx := Context(
          e.version, e.url, e.soapMethod, e.operation, namespace,
          "\"" + namespace + "/" + e.soapMethod + "\"",
          Header.Get(digit),
          Some(SoapHeader(namespace, "cabecalho", digit)))))
  }

  lemma InitialValid()
    ensures Valid(Initial)
  {
  }

  lemma VersionPreservesValid(s: State, version: Option<string>)
    requires Valid(s)
    ensures Version(s, version).Success? ==> Valid(Version(s, version).value.0)
  {
  }

  lemma SetEnvironmentPreservesValid(s: State, tpAmb: int)
    requires Valid(s)
    ensures Valid(SetEnvironment(s, tpAmb))
  {
  }

  lemma ServicoPreservesValid(s: State, catalog: Catalog, service: string, mun: string, tpAmb: int)
    requires Valid(s)
    ensures Servico(s, catalog, service, mun, tpAmb).Success? ==>
      Valid(Servico(s, catalog, service, mun, tpAmb).value)
  {
  }

  /** Every reachable session sends header version "2": the initial
      `2.0.3` and the only supported `2.03` share their first character. */
  lemma HeaderVersionOfValid(s: State)
    requires Valid(s)
    ensures HeaderVersion(s) == "2"
  {
    if s.versao != InitialVersion {
      assert s.versao == "2.03";
    }
  }

  /** Reading the version after selecting one returns it. */
  lemma VersionReadAfterSelect(s: State, v: string)
    requires v in AvailableVersions
    ensures Version(s, Some(v)).Success?
    ensures Version(Version(s, Some(v)).value.0, None).value.1 == v
  {
  }

  /** Selecting the same version twice is the same as selecting it once. */
  lemma VersionIdempotent(s: State, v: string)
    requires v in AvailableVersions
    ensures Version(s, Some(v)).Success?
    ensures Version(Version(s, Some(v)).value.0, Some(v)) == Version(s, Some(v))
  {
  }

  /** Applying the same environment flag twice is the same as once. */
  lemma SetEnvironmentIdempotent(s: State, tpAmb: int)
    ensures SetEnvironment(SetEnvironment(s, tpAmb), tpAmb) == SetEnvironment(s, tpAmb)
  {
  }

  /** The dispatch context is rebuilt, never merged: what `servico` leaves
      does not depend on the context before the call. */
  lemma ServicoForgetsPreviousContext(s: State, c: Context, catalog: Catalog, service: string, mun: string, tpAmb: int)
    ensures Servico(s, catalog, service, mun, tpAmb).Success? <==>
      Servico(s.(ctx := c), catalog, service, mun, tpAmb).Success?
    ensures Servico(s, catalog, service, mun, tpAmb).Success? ==>
      Servico(s, catalog, service, mun, tpAmb).value.ctx ==
      Servico(s.(ctx := c), catalog, service, mun, tpAmb).value.ctx
  {
  }

  /** The public calls that change the session. */
  datatype Call =
    | SelectVersion(version: Option<string>)
    | SelectEnvironment(tpAmb: int)
    | Resolve(catalog: Catalog, service: string, mun: string, tpAmbArg: int)

  /** The session after a call: a call that throws leaves it untouched. */
  function Apply(s: State, call: Call): (r: State)
    ensures r.ctx != s.ctx ==> call.Resolve?
    ensures r.versao != s.versao ==> call.SelectVersion? && call.version.Some? && r.versao == call.version.value
    ensures r.tpAmb != s.tpAmb ==> call.SelectEnvironment? && r.tpAmb == call.tpAmb
    ensures r.urlPortal == s.urlPortal
  {
    match call
    case SelectVersion(v) =>
      (match Version(s, v) case Success(reply) => reply.0 case Failure(_) => s)
    case SelectEnvironment(t) => SetEnvironment(s, t)
    case Resolve(catalog, service, mun, t) =>
      (match Servico(s, catalog, service, mun, t) case Success(s') => s' case Failure(_) => s)
  }

  /** The session after a sequence of calls. */
  function Run(s: State, calls: seq<Call>): State
    decreases |calls|
  {
    if |calls| == 0 then s else Run(Apply(s, calls[0]), calls[1..])
  }

  /** Every session reachable from a constructed one keeps the invariant. */
  lemma {:induction false} RunPreservesValid(s: State, calls: seq<Call>)
    requires Valid(s)
    ensures Valid(Run(s, calls))
    decreases |calls|
  {
    if |calls| > 0 {
      ApplyPreservesValid(s, calls[0]);
      RunPreservesValid(Apply(s, calls[0]), calls[1..]);
    }
  }

  /** No call changes the portal namespace the constructor set. */
  lemma {:induction false} RunKeepsPortal(s: State, calls: seq<Call>)
    ensures Run(s, calls).urlPortal == s.urlPortal
    decreases |calls|
  {
    if |calls| > 0 {
      RunKeepsPortal(Apply(s, calls[0]), calls[1..]);
    }
  }

  /** Every session reached from a constructed client is valid and keeps
      the portal URL, so `servico` never builds a header with an empty
      namespace. */
  lemma ConstructedRunValid(versao: Option<string>, tpAmb: int, calls: seq<Call>)
    requires Construct(versao, tpAmb).Success?
    ensures Valid(Run(Construct(versao, tpAmb).value, calls))
    ensures Run(Construct(versao, tpAmb).value, calls).urlPortal == PortalUrl
  {
    RunPreservesValid(Construct(versao, tpAmb).value, calls);
    RunKeepsPortal(Construct(versao, tpAmb).value, calls);
  }

  lemma ApplyPreservesValid(s: State, call: Call)
    requires Valid(s)
    ensures Valid(Apply(s, call))
  {
    match call
    case SelectVersion(v) => VersionPreservesValid(s, v);
    case SelectEnvironment(t) => SetEnvironmentPreservesValid(s, t);
    case Resolve(catalog, service, mun, t) => ServicoPreservesValid(s, catalog, service, mun, t);
  }

  /** A client configured for version 2.03 in the staging environment
      resolves `ConsultarNfseServicoTomado` from the staging catalog entry,
      to the quoted portal action and a version-2 header. */
  lemma ConsultarNfseServicoTomadoScenario(catalog: Catalog, mun: string, e: Endpoint)
    requires (mun, Staging) in catalog
    requires "ConsultarNfseServicoTomado" in catalog[(mun, Staging)]
    requires catalog[(mun, Staging)]["ConsultarNfseServicoTomado"] == e && !Empty(e.url)
    ensures Construct(Some("2.03"), 2).Success?
    ensures var s := Construct(Some("2.03"), 2).value;
      var r := Servico(s, catalog, "ConsultarNfseServicoTomado", mun, s.tpAmb);
      && r.Success?
      && r.value.ctx.urlService == e.url
      && r.value.ctx.urlAction == "\"http://nfse.abrasf.org.br/" + e.soapMethod + "\""
      && r.value.ctx.urlHeader == Header.Get("2")
  {
    ConstructStaging();
    var s := Construct(Some("2.03"), 2).value;
    HeaderVersionOfValid(s);
    PortalActionPrefix();
  }

  lemma PortalActionPrefix()
    ensures "\"" + PortalUrl + "/" == "\"http://nfse.abrasf.org.br/"
  {
  }

  /** The client built for version 2.03 and flag 2. */
  lemma ConstructStaging()
    ensures Construct(Some("2.03"), 2).Success?
    ensures var s := Construct(Some("2.03"), 2).value;
      Valid(s) && s.tpAmb == 2 && s.urlPortal == PortalUrl && EnvironmentName(s.tpAmb) == Staging
  {
    assert "2.03" in AvailableVersions;
  }
}

=== FILE: Text.dfy ===
/** Literal string primitives the client relies on: PHP's `strpos` (as an
    `Option`), `substr` past the end, and `preg_replace` of a pattern without
    metacharacters (a single left-to-right erase), together with `explode`/
    `implode` as an independent reference for the erase. PHP strings are
    byte strings; each `char` of a `string` here stands for one byte, so
    every offset and length counts bytes, as `strlen` does. */
module Text {
  import opened Wrappers

  /** `p` occurs in `s` starting at index `i`. */
  predicate MatchAt(s: string, p: string, i: nat)
  {
    i + |p| <= |s| && s[i..i + |p|] == p
  }

  /** `p` occurs somewhere in `s` (PHP `preg_match` of a literal pattern). */
  predicate Contains(s: string, p: string)
  {
    exists i: nat | i <= |s| :: MatchAt(s, p, i)
  }

  /** First occurrence of `p` in `s` at or after `from`. */
  function IndexFrom(s: string, p: string, from: nat): (r: Option<nat>)
    decreases |s| - from
    ensures r.Some? ==> from <= r.value && MatchAt(s, p, r.value)
    ensures r.Some? ==> forall j: nat :: from <= j < r.value ==> !MatchAt(s, p, j)
    ensures r.None? ==> forall j: nat :: from <= j ==> !MatchAt(s, p, j)
  {
    if from + |p| > |s| then None
    else if s[from..from + |p|] == p then Some(from)
    else IndexFrom(s, p, from + 1)
  }

  /** PHP `strpos(s, p)`: `None` stands for `false`. */
  function IndexOf(s: string, p: string): (r: Option<nat>)
    ensures r.Some? <==> Contains(s, p)
    ensures r.Some? ==> MatchAt(s, p, r.value)
    ensures r.Some? ==> forall j: nat :: j < r.value ==> !MatchAt(s, p, j)
  {
    var r := IndexFrom(s, p, 0);
    assert r.Some? ==> r.value <= |s|;
    r
  }

  /** A `strpos` result used as an offset: PHP coerces `false` to 0. */
  function OffsetOrZero(pos: Option<nat>): nat
  {
    pos.GetOr(0)
  }

  /** PHP 8 `substr(s, start, strlen(s))` for `start >= 0`: the tail from
      `start`, or the empty string when `start` lies past the end. */
  function SubstrFrom(s: string, start: nat): (r: string)
    ensures start <= |s| ==> s == s[..start] + r
    ensures start >= |s| ==> r == []
  {
    if start <= |s| then s[start..] else []
  }

  /** PHP `substr(s, 0, strpos(s, p))`: the text before the first
      occurrence of `p`; when there is none `strpos` gives `false`, which
      becomes length 0, so the result is empty. */
  function CutBefore(s: string, p: string): (r: string)
    requires p != []
    ensures !Contains(r, p)
    ensures Contains(s, p) ==> |r| <= |s| && s[..|r|] == r && MatchAt(s, p, |r|)
    ensures Contains(s, p) ==> forall j: nat :: j < |r| ==> !MatchAt(s, p, j)
    ensures !Contains(s, p) ==> r == []
  {
    var n := OffsetOrZero(IndexOf(s, p));
    ClearBeforeOffset(s, p);
    s[..n]
  }

  /** PHP `preg_replace('/p/', '', s)` for a literal `p`: every occurrence
      found scanning left to right is removed, the scan resumes after the
      removed text, and the result is not rescanned. */
  function EraseAll(s: string, p: string): (r: string)
    requires p != []
    decreases |s|
    ensures |r| <= |s|
  {
    if |s| < |p| then s
    else if s[..|p|] == p then EraseAll(s[|p|..], p)
    else [s[0]] + EraseAll(s[1..], p)
  }

  /** PHP `explode(sep, s)`: the pieces between successive leftmost
      occurrences of `sep`. */
  function Split(s: string, sep: string): (parts: seq<string>)
    requires sep != []
    decreases |s|
    ensures |parts| > 0
  {
    match IndexOf(s, sep)
    case None => [s]
    case Some(i) => [s[..i]] + Split(s[i + |sep|..], sep)
  }

  /** PHP `implode(sep, parts)`. */
  function Join(parts: seq<string>, sep: string): string
    decreases |parts|
  {
    if |parts| == 0 then []
    else if |parts| == 1 then parts[0]
    else parts[0] + sep + Join(parts[1..], sep)
  }

  /** No proper prefix of `p` is also a suffix of it, so two occurrences of
      `p` in any text never overlap. */
  predicate BorderFree(p: string)
  {
    forall k :: 0 < k < |p| ==> p[..k] != p[|p| - k..]
  }

  /** The tail after the first two parts of a concatenation. */
  lemma SliceAfter(a: string, b: string, c: string)
    ensures (a + b + c)[|a| + |b|..] == c
  {
  }

  /** Regrouping a five-part concatenation around its middle part. */
  lemma Regroup5(a: string, b: string, c: string, d: string, e: string)
    ensures a + b + c + d + e == a + b + (c + d + e)
  {
  }

  lemma Assoc4(a: string, b: string, c: string, d: string)
    ensures a + b + c + d == a + (b + c + d)
  {
  }

  lemma Assoc5(a: string, b: string, c: string, d: string, e: string)
    ensures a + b + c + d + e == a + (b + c + d + e)
  {
  }

  /** A pattern whose first character appears nowhere else is border-free. */
  lemma LeadBorderFree(c: char, rest: string)
    requires c !in rest
    ensures BorderFree([c] + rest)
  {
    var p := [c] + rest;
    forall k | 0 < k < |p|
      ensures p[..k] != p[|p| - k..]
    {
      assert p[..k][0] == c;
      assert p[|p| - k..][0] == rest[|p| - k - 1];
    }
  }

  /** A pattern whose last character appears nowhere else is border-free. */
  lemma TrailBorderFree(rest: string, c: char)
    requires c !in rest
    ensures BorderFree(rest + [c])
  {
    var p := rest + [c];
    forall k | 0 < k < |p|
      ensures p[..k] != p[|p| - k..]
    {
      assert p[..k][k - 1] == rest[k - 1];
      assert p[|p| - k..][k - 1] == c;
    }
  }

  /** A text lacking one of the pattern's characters cannot contain it. */
  lemma MissingCharNotContained(s: string, p: string, c: char)
    requires c in p && c !in s
    ensures !Contains(s, p)
  {
    var m :| 0 <= m < |p| && p[m] == c;
    forall i: nat | i + |p| <= |s|
      ensures !MatchAt(s, p, i)
    {
      assert s[i + m] != c;
      assert s[i..i + |p|][m] == s[i + m];
    }
  }

  /** An occurrence in a tail of `s` is an occurrence in `s`, shifted. */
  lemma MatchInTail(s: string, p: string, n: nat, j: nat)
    requires n <= |s|
    ensures MatchAt(s[n..], p, j) <==> MatchAt(s, p, n + j)
  {
    if j + |p| <= |s| - n {
      assert s[n..][j..j + |p|] == s[n + j..n + j + |p|];
    }
  }

  /** Before the first occurrence of `p` there is no occurrence: the text
      up to the first match does not contain `p`. */
  lemma PrefixBeforeFirstMatch(s: string, p: string, i: nat)
    requires p != [] && IndexOf(s, p) == Some(i)
    ensures !Contains(s[..i], p)
  {
    forall j: nat | j + |p| <= i
      ensures !MatchAt(s[..i], p, j)
    {
      assert !MatchAt(s, p, j);
      assert s[..i][j..j + |p|] == s[j..j + |p|];
    }
  }

  /** The text before PHP's `strpos` offset never contains the pattern,
      whether the pattern was found or not. */
  lemma ClearBeforeOffset(s: string, p: string)
    requires p != []
    ensures OffsetOrZero(IndexOf(s, p)) <= |s|
    ensures !Contains(s[..OffsetOrZero(IndexOf(s, p))], p)
  {
    match IndexOf(s, p)
    case Some(i) => PrefixBeforeFirstMatch(s, p, i);
    case None =>
  }

  /** In `a + p + b` with `p` border-free and absent from `a`, the first
      occurrence of `p` is the one right after `a`. */
  lemma FirstOccurrence(a: string, p: string, b: string)
    requires p != [] && BorderFree(p) && !Contains(a, p)
    ensures IndexOf(a + p + b, p) == Some(|a|)
  {
    var x := a + p + b;
    assert x[|a|..|a| + |p|] == p;
    assert MatchAt(x, p, |a|);
    forall j: nat | j < |a|
      ensures !MatchAt(x, p, j)
    {
      if j + |p| <= |a| {
        assert x[j..j + |p|] == a[j..j + |p|];
        assert !MatchAt(a, p, j);
      } else if j + |p| <= |x| {
        var k := j + |p| - |a|;
        assert 0 < k < |p|;
        assert p[..k] != p[|p| - k..];
        assert x[j..j + |p|][|p| - k..] == x[|a|..j + |p|] == p[..k];
      }
    }
    var r := IndexOf(x, p);
    assert r.Some?;
    assert r.value <= |a|;
  }

  /** Dropping the text through the first `open` and cutting before the
      next `close` recovers what lies between them. */
  lemma CutBetween(pre: string, open: string, inner: string, close: string, post: string)
    requires open != [] && BorderFree(open) && !Contains(pre, open)
    requires close != [] && BorderFree(close) && !Contains(inner, close)
    ensures var xml := pre + open + inner + close + post;
      CutBefore(SubstrFrom(xml, OffsetOrZero(IndexOf(xml, open)) + |open|), close) == inner
  {
    var xml := pre + open + inner + close + post;
    var rest := inner + close + post;
    Regroup5(pre, open, inner, close, post);
    FirstOccurrence(pre, open, rest);
    SliceAfter(pre, open, rest);
    assert SubstrFrom(xml, |pre| + |open|) == rest;
    FirstOccurrence(inner, close, post);
    assert MatchAt(rest, close, |inner|);
  }

  /** A prefix `q` of a pattern placed after `a` occurs in the text. */
  lemma ProbeInside(a: string, p: string, b: string, q: string)
    requires |q| <= |p| && p[..|q|] == q
    ensures Contains(a + p + b, q)
  {
    var x := a + p + b;
    assert x[|a|..|a| + |q|] == p[..|q|];
    assert MatchAt(x, q, |a|);
  }

  /** Erasing never touches a prefix that contains no occurrence. */
  lemma {:induction false} EraseAllKeepsClearPrefix(s: string, p: string, i: nat)
    requires p != [] && i <= |s|
    requires forall j: nat :: j < i ==> !MatchAt(s, p, j)
    ensures EraseAll(s, p) == s[..i] + EraseAll(s[i..], p)
    decreases i
  {
    if i == 0 {
      assert s[..0] == [] && s[0..] == s;
    } else if |s| < |p| {
      assert |s[i..]| < |p|;
      assert s[..i] + s[i..] == s;
    } else {
      assert !MatchAt(s, p, 0);
      EraseAllSkip(s, p);
      ClearAfterFirst(s, p, i);
      EraseAllKeepsClearPrefix(s[1..], p, i - 1);
      ShiftPrefix(s, i);
      Recombine(s, i, EraseAll(s[1..], p), EraseAll(s[i..], p));
    }
  }

  /** Putting the first character back in front of a split tail. */
  lemma Recombine(s: string, i: nat, e: string, rest: string)
    requires 0 < i <= |s| && e == s[1..i] + rest
    ensures [s[0]] + e == s[..i] + rest
  {
    assert [s[0]] + s[1..i] == s[..i];
  }

  /** A prefix of `s` clear of `p` stays clear once the first character
      is dropped. */
  lemma ClearAfterFirst(s: string, p: string, i: nat)
    requires 0 < i <= |s|
    requires forall j: nat :: j < i ==> !MatchAt(s, p, j)
    ensures forall j: nat :: j < i - 1 ==> !MatchAt(s[1..], p, j)
  {
    forall j: nat | j < i - 1
      ensures !MatchAt(s[1..], p, j)
    {
      MatchInTail(s, p, 1, j);
    }
  }

  /** Erasing from text that does not start with `p` keeps its first
      character. */
  lemma EraseAllSkip(s: string, p: string)
    requires p != [] && |p| <= |s| && !MatchAt(s, p, 0)
    ensures EraseAll(s, p) == [s[0]] + EraseAll(s[1..], p)
  {
    assert s[..|p|] == s[0..|p|];
  }

  /** Splitting off the first character commutes with splitting at `i`. */
  lemma ShiftPrefix(s: string, i: nat)
    requires 0 < i <= |s|
    ensures s[1..][..i - 1] == s[1..i] && s[1..][i - 1..] == s[i..]
    ensures [s[0]] + s[1..i] == s[..i]
  {
  }

  /** Erasing `p` from text that starts with `p` drops that occurrence. */
  lemma EraseAllAtMatch(s: string, p: string)
    requires p != [] && MatchAt(s, p, 0)
    ensures EraseAll(s, p) == EraseAll(s[|p|..], p)
  {
    assert s[..|p|] == s[0..|p|];
  }

  /** The erase scanner agrees with `explode` followed by `implode('')`:
      it removes exactly the occurrences `explode` splits on. */
  lemma {:induction false} EraseAllIsSplitJoin(s: string, p: string)
    requires p != []
    ensures EraseAll(s, p) == Join(Split(s, p), [])
    decreases |s|
  {
    match IndexOf(s, p)
    case None =>
      EraseAllKeepsClearPrefix(s, p, |s|);
      assert s[|s|..] == [];
      assert s[..|s|] == s;
    case Some(i) =>
      EraseAllKeepsClearPrefix(s, p, i);
      MatchInTail(s, p, i, 0);
      EraseAllAtMatch(s[i..], p);
      assert s[i..][|p|..] == s[i + |p|..];
      EraseAllIsSplitJoin(s[i + |p|..], p);
      var rest := Split(s[i + |p|..], p);
      assert Split(s, p) == [s[..i]] + rest;
      assert ([s[..i]] + rest)[1..] == rest;
  }

  /** `implode(sep, explode(sep, s)) == s`. */
  lemma {:induction false} JoinSplit(s: string, sep: string)
    requires sep != []
    ensures Join(Split(s, sep), sep) == s
    decreases |s|
  {
    match IndexOf(s, sep)
    case None =>
    case Some(i) =>
      JoinSplit(s[i + |sep|..], sep);
      var rest := Split(s[i + |sep|..], sep);
      assert ([s[..i]] + rest)[1..] == rest;
      assert s[i..i + |sep|] == sep;
      assert s[..i] + sep + s[i + |sep|..] == s;
  }

  /** No piece produced by `explode` contains the separator. */
  lemma {:induction false} SplitPiecesAvoidSeparator(s: string, sep: string)
    requires sep != []
    ensures forall k :: 0 <= k < |Split(s, sep)| ==> !Contains(Split(s, sep)[k], sep)
    decreases |s|
  {
    match IndexOf(s, sep)
    case None =>
    case Some(i) =>
      PrefixBeforeFirstMatch(s, sep, i);
      SplitPiecesAvoidSeparator(s[i + |sep|..], sep);
      var rest := Split(s[i + |sep|..], sep);
      assert Split(s, sep) == [s[..i]] + rest;
      forall k | 1 <= k < |Split(s, sep)|
        ensures Split(s, sep)[k] == rest[k - 1]
      {
      }
  }

  /** Erasing changes the text exactly when the pattern occurs in it, and
      then strictly shortens it. */
  lemma EraseAllUnchangedIff(s: string, p: string)
    requires p != []
    ensures EraseAll(s, p) == s <==> !Contains(s, p)
    ensures Contains(s, p) ==> |EraseAll(s, p)| < |s|
  {
    match IndexOf(s, p)
    case None =>
      EraseAllKeepsClearPrefix(s, p, |s|);
      assert s[|s|..] == [] && s[..|s|] == s;
    case Some(i) =>
      EraseAllKeepsClearPrefix(s, p, i);
      MatchInTail(s, p, i, 0);
      EraseAllAtMatch(s[i..], p);
      var tail := EraseAll(s[i..][|p|..], p);
      assert |tail| <= |s| - i - |p|;
  }

  /** `preg_replace` does not rescan: erasing can join the text around a
      removed occurrence into a new one, which stays in the result. */
  lemma EraseAllDoesNotRescan()
    ensures EraseAll("nns3:s3:", "ns3:") == "ns3:"
  {
    var s := "nns3:s3:";
    assert s[..4] == "nns3";
    assert s[1..] == "ns3:s3:";
    assert s[1..][..4] == "ns3:";
    assert s[1..][4..] == "s3:";
  }
}

=== FILE: Wrappers.dfy ===
/** Failure-compatible wrappers used throughout the model: `Option` stands for
    PHP values that may be `null`/`false`, `Result` for calls that may throw. */
module Wrappers {

  datatype Option<+T> = None | Some(value: T) {

    /** The wrapped value, or `default` when there is none. */
    function GetOr(default: T): T {
      match this
      case Some(v) => v
      case None => default
    }
  }

  datatype Result<+R, +E> = Success(value: R) | Failure(error: E) {

    predicate IsFailure() {
      Failure?
    }

    function PropagateFailure<U>(): Result<U, E>
      requires Failure?
    {
      Failure(error)
    }

    function Extract(): R
      requires Success?
    {
      value
    }
  }
}
